=== FILE: README.md ===
# notion-2-issue, modelled in Dafny

notion-2-issue copies task pages from a Notion database into GitHub issues. This
project models its data-shaping core:

- **NotionHelper** (`notion_helper.dfy`): the typed accessors over a page's property
  bag (`_get_property`, `get_title`, `get_rich_text`, `get_number`,
  `get_multi_select`), and `get_notion_issues` from the decoded response body on.
  That loop walks the `results` list in reverse. It skips pages without properties
  and pages with an empty title. Every other page becomes a flat record.
- **Script** (`script.dfy`): the driver in `script.py`. It builds the records the
  same way, except that a page without properties aborts the run. Then it walks the
  records in order and skips every record whose title exactly equals an existing
  issue title. It sends a creation request for each of the others.
- **GitHubHelper** (`github_helper.dfy`): the repository full name split into
  organization and project, `create_issue` turning the library's `GithubException`
  into `None`, and the unwrapping of the `query_prj` and `add_item_to_prj` responses.

Shared pieces: `wrappers.dfy` (Option and Result) and `pyvalue.dfy`. The latter holds
the decoded-JSON value `Json`, Python's `None` being `Null`. It also holds the Python
semantics the code relies on: subscripting with its KeyError, IndexError and TypeError
cases, `dict.get`, truthiness, `x or y`, and chained subscripts. Each accessor returns
`Py<T>`, which is a value or the exception the Python code would raise. The code only
catches some exceptions, so a property of the wrong shape (a list where a dict is
expected) makes the accessor raise TypeError.

The remote calls are inputs. The Notion response is the decoded body. The existing
issues are a `seq<string>` of titles, read once. The creation call is a function from
the call's index to its reply. The graph-query responses are decoded bodies. The
library's `create_issue` is a function from the request to an issue or an exception.

Behaviour of the code worth knowing:

- `get_notion_issues` skips a page without properties. Only the driver in
  `script.py` raises (`DatabaseError`).
- In `script.py` an exception from the creation call is not caught, so it ends the
  run. Only `GitHubHelper.create_issue` turns `GithubException` into `None`.
- `script.py` only creates issues: it links none to a project and writes no summary.
- `get_title` returns `x or ""`. This is a string whenever the stored `plain_text` is
  a string, but the code does not force a non-string `plain_text` into a string.

## Model

| member | source | states |
|---|---|---|
| PyValue.Walk | utils/GitHubHelper.py:64 | a chained string subscript succeeds exactly when every key on the path is present in a dict, yields the value found there, and otherwise raises only KeyError or TypeError |
| NotionHelper.GetProperty | utils/NotionHelper.py:19-26 | text types yield the first run's `plain_text`; other types yield the raw value under `props[name][prop_type]`; a missing field, a missing type key, an empty run list or empty string, a first run without `plain_text`, or a dict where the run list belongs (every KeyError and IndexError on the path) yields `None`; a non-dict bag or field, a first run that is not a dict, or a text value that is neither a list, a dict nor the empty string raises TypeError, the only exception that escapes |
| NotionHelper.TextOrEmpty | utils/NotionHelper.py:28-32 | `get_title` and `get_rich_text`: the result is `""` exactly when the lookup yields a false value (`None`, `""`, ...), is the lookup's value otherwise, is never another false value, and is a string whenever the lookup yields a string or `None` |
| NotionHelper.GetNumber | utils/NotionHelper.py:34-35 | the value stored under `number`, or `None` when the field or its `number` key is absent |
| NotionHelper.OptionNames | utils/NotionHelper.py:39 | every option's `name` in source order, one per option; the first option whose `name` lookup fails decides the exception |
| NotionHelper.NamesOf | utils/NotionHelper.py:39 | on a list, the per-option name lookup; a value that is not a list iterates without error exactly when it is a false (empty) dict or string, then giving `[]`, and raises TypeError otherwise; only KeyError or TypeError can come out |
| NotionHelper.GetMultiSelect | utils/NotionHelper.py:37-41 | `[]` when the field or `multi_select` is missing; on a list of options, the option names, or `[]` when the names fail with KeyError; a non-dict bag or field raises TypeError; a `multi_select` value that is not a list iterates as `NamesOf` states (`[]` for an empty dict or string, TypeError otherwise); only TypeError escapes |
| NotionHelper.MultiSelectNamesInOrder | utils/NotionHelper.py:37-39 | when every option has a `name`, the result lists all the names in source order |
| NotionHelper.MultiSelectUnnamedOptionDropsAll | utils/NotionHelper.py:38-41 | a dict option without `name`, reached before any other failure, empties the whole result |
| NotionHelper.ReversedEntries | utils/NotionHelper.py:51 | a list is visited last element first, every element once; a value that is not a list is accepted exactly when it is a false (empty) dict or string, and then yields nothing; a non-empty dict or string fails with AttributeError (from `.get` on a key), anything else with TypeError |
| NotionHelper.Reverse | utils/NotionHelper.py:51 | position `i` of the result holds the element `|s| - 1 - i` of the input |
| NotionHelper.CollectSome | utils/NotionHelper.py:50-69 | the loop succeeds exactly when every step does; it yields no more records than entries; every record comes from some entry's step, and every record a step produces appears in the result; the first failing step decides the exception (order and multiplicity are fixed by `CollectSomeAppend` and `CollectSomeSingle`) |
| NotionHelper.PageIssue | utils/NotionHelper.py:52-67 | a page without properties is skipped; a page with an empty title is skipped; a page with properties, a non-empty title and readable fields is kept; a kept record has a non-empty title and its five fields come from "Title", "Discription", "Assignees", "Labels" and "ProjectNumber" through the accessors; a non-dict page raises AttributeError, and otherwise only an accessor's TypeError stops the loop |
| NotionHelper.GetNotionIssues | utils/NotionHelper.py:48-69 | a missing `results` key raises KeyError and a non-dict body raises TypeError; on a `results` list, it succeeds exactly when every page's step does, and every record is the record some page yields; there are no more records than pages; every record's title is truthy |
| NotionHelper.GetNotionIssuesOfPages | utils/NotionHelper.py:48-51 | on any response body whose `results` is a list, whatever its other keys, the output is the loop over the pages in reverse order |
| NotionHelper.CollectSomeAppend | utils/NotionHelper.py:51-67 | the loop over `a + b` is the loop over `a` followed by the loop over `b`, and an exception in `a` comes first |
| NotionHelper.CollectSomeSingle | utils/NotionHelper.py:52-67 | the loop over one entry is that entry's step: its record alone, nothing when the step declines, or its exception |
| NotionHelper.LastPageFirst | utils/NotionHelper.py:51 | for any two response bodies whose `results` lists differ by a last page, that page's record comes before the records of all earlier pages |
| NotionHelper.FirstPageLast | utils/NotionHelper.py:51 | for any two response bodies whose `results` lists differ by a first page, that page's record comes after the records of all later pages |
| NotionHelper.PageWithoutPropertiesSkipped | utils/NotionHelper.py:52-54 | for any two response bodies whose `results` lists differ by one page without properties, at any position, the output is the same |
| Script.ScriptPage | script.py:33-48 | a page without properties raises DatabaseError; an empty title is skipped; a page with properties, a non-empty title and readable fields yields a record; a kept record has a non-empty title and its four fields come from the accessors; there is no project number; on a page with properties only an accessor's TypeError stops the loop |
| Script.PageWithoutPropertiesFailsBuild | script.py:32-35 | a page without properties anywhere in the list makes the loop over the reversed pages fail |
| Script.BuildIssues | script.py:31-48 | the records are the loop over the pages in reverse order; no record has an empty title; a page without properties anywhere in the list makes the build fail |
| Script.ScriptPageAgreesWithHelper | script.py:36-46 | on a page with properties, the driver and `get_notion_issues` make the same skip decision, raise the same exception and build the same fields, apart from the project number |
| Script.BuildAgreesWithHelper | script.py:31-48 | when every page has properties and a `ProjectNumber` the helper can read, the driver builds exactly the helper's records without their project numbers |
| Script.BuildLastPageFirst | script.py:32 | the record of the last page received is the first record built |
| Script.NewIssuesMembers | script.py:55-59 | a record is among those to create exactly when it is one of the records and its title equals no existing issue title |
| Script.NothingFiledAllSubmitted | script.py:53-57 | the snapshot is never updated: when no title is already filed, every record is submitted, duplicate titles included |
| Script.CreateMissing | script.py:55-70 | without an exception, the requests are exactly the unfiled records in order, with one report line per record; the requests always form a prefix of that list; an exception ends the run at the request that raised it; each line names its record and is "already exists" exactly for filed titles and "created" exactly for a truthy reply |
| Script.Sync | script.py:31-70 | a failed build sends no request; otherwise the requests are a prefix of the unfiled records (all of them without an exception); no request has a filed or empty title; a page without properties means nothing is created and the run fails |
| Script.ScriptPageAsWritten | script.py:33-37 | as written, every page fails: AttributeError on a non-dict entry, DatabaseError when `properties` is missing or null, TypeError from the one-argument `NotionHelper(properties)` otherwise |
| Script.BuildIssuesAsWritten | script.py:31-40 | as written, the build never produces a record and fails on every non-empty list |
| Script.AsWrittenRejectsWellFormedPage | script.py:36-37 | a page titled "Bug A" makes the build as written raise TypeError, while the build through the accessors yields the record ("Bug A", "", [], []) |
| GitHubHelper.Split | utils/GitHubHelper.py:14 | `split('/')` gives one more part than there are slashes, no part holds a slash, joining the parts with `/` gives back the name, and the first part is the text before the first slash |
| GitHubHelper.SplitJoin | utils/GitHubHelper.py:14 | splitting undoes joining for parts without a slash |
| GitHubHelper.Init | utils/GitHubHelper.py:14 | unpacking succeeds exactly when the full name has one slash, and then `org + "/" + project` is the full name and neither part holds a slash; otherwise ValueError |
| GitHubHelper.InitOwnerAndName | utils/GitHubHelper.py:14-23 | for `a/b` with no other slash, `get_organization` returns `a` and `get_project` returns `b` |
| GitHubHelper.CreateIssue | utils/GitHubHelper.py:25-37 | the library's issue is returned; its GithubException, and only that, becomes `None`; any other exception propagates unchanged |
| GitHubHelper.CreateIssueDefaultsAndFailure | utils/test_GitHubHelper.py:58-69 | called with a title and body only, the library receives empty assignee and label lists, and its GithubException comes back as `None` |
| GitHubHelper.Login | utils/GitHubHelper.py:48 | the login holds no slash, is a prefix of the repository name and is followed by a slash or the end of the name |
| GitHubHelper.QueryPrj | utils/GitHubHelper.py:63-70 | `{id, title}` of `data[scope].projectV2` when that path exists and holds both keys; `None` when a key on the path is missing or a value on it is not a dict (including null); the scope defaults to `organization` |
| GitHubHelper.QueryPrjExamples | utils/test_GitHubHelper.py:91-106 | the success response yields `{id: "proj_123", title: "Test Project"}` and `organization: null` yields `None` |
| GitHubHelper.AddItemToPrj | utils/GitHubHelper.py:85-88 | the value at `data.addProjectV2ItemById.item.id` when the path exists, otherwise `None` |
| GitHubHelper.AddItemToPrjExamples | utils/test_GitHubHelper.py:108-131 | the success response yields `"item_456"`; a null mutation result yields `None` |

## Left out

- HTTP and library calls are inputs or outcomes, not modelled: the Notion query (utils/NotionHelper.py:43-47, script.py:17-29), `_make_request` with `raise_for_status` (utils/GitHubHelper.py:90-94), and PyGithub's `Github`, `get_repo`, `get_issues` and `create_issue`. A transport failure therefore never appears.
- `GitHubHelper.get_issues` only forwards the library's list. That list is the snapshot input of `Script.Sync`.
- Reading environment variables, the request headers and URLs (utils/NotionHelper.py:7-16, script.py:12-25), and the console and warning output. The driver's three report lines are modelled as `Script.Line`.
- The text of the two graph queries (utils/GitHubHelper.py:50-59, 73-81). `query_prj`'s `number` is used only in that text, so `GitHubHelper.QueryPrj` takes no number. `GitHubHelper.Login` gives the login that the text would carry.
- Floating-point numbers. `Json.Num` holds an integer, and `get_number` passes the value through unchanged.
- The order of a dict's keys. Wherever the code iterates a dict (`reversed(results)`, the option list), any key gives the same outcome, so only whether the dict is empty matters.
- The test expectations that the code does not implement: a ValueError for a non-string field name (utils/test_NotionHelper.py:40-57), and the missing `sync_notion_to_github` entry point (utils/test_Notion2Issue_IT.py:7).
- NotionHelper.TextOrEmpty: states that the result of `get_title` or `get_rich_text` is a string only when the stored `plain_text` is a string or absent, because the code returns a non-string `plain_text` unchanged.
- Script.ScriptPageAgreesWithHelper: assumes the helper can read `ProjectNumber`, because a `ProjectNumber` field of the wrong shape raises TypeError in the helper while the driver never reads it.
- Script.BuildAgreesWithHelper: assumes the same of every page, for the same reason: on a page with a malformed `ProjectNumber` the helper's loop fails where the driver's goes on.

## Findings

| source | as written | input that shows it | evidently intended | confidence | as-written member | corrected member |
|---|---|---|---|---|---|---|
| script.py:36-37 | `NotionHelper(properties)` passes one argument to a constructor that takes a token and a database id (utils/NotionHelper.py:7), and `get_title("Title")` omits the property bag, so every page with properties raises TypeError | `results = [{"properties": {"Title": {"title": [{"plain_text": "Bug A"}]}}}]` | read each page through the accessors `get_title(props, "Title")` and so on, giving the record ("Bug A", "", [], []); `Script.BuildAgreesWithHelper` proves this matches `get_notion_issues` | high; not executed | Script.AsWrittenRejectsWellFormedPage | Script.BuildIssues |

=== FILE: github_helper.dfy ===
/**
 * The GitHub side (utils/GitHubHelper.py): the repository's full name split into
 * organization and project, issue creation with the library's exception turned into
 * `None`, and the unwrapping of the two graph-query responses. The remote calls are
 * inputs: the library's reply to a creation request, and the decoded response body
 * of each graph query.
 */
module GitHubHelper {
  import opened Wrappers
  import opened PyValue

  /** Number of occurrences of `c` in `s`. */
  function Count(s: string, c: char): nat {
    if |s| == 0 then 0 else (if s[0] == c then 1 else 0) + Count(s[1..], c)
  }

  /** The parts joined back together with `sep` between them. */
  function Join(parts: seq<string>, sep: char): string
    requires |parts| > 0
  {
    if |parts| == 1 then parts[0] else parts[0] + [sep] + Join(parts[1..], sep)
  }

  /** Python's `s.split(sep)` for a one-character separator: the maximal runs between
      separators, including empty ones. */
  function Split(s: string, sep: char): (parts: seq<string>)
    ensures |parts| == Count(s, sep) + 1
    ensures forall i :: 0 <= i < |parts| ==> sep !in parts[i]
    ensures Join(parts, sep) == s
    // The first part is the text before the first separator.
    ensures parts[0] <= s && (|parts[0]| < |s| ==> s[|parts[0]|] == sep)
  {
    if |s| == 0 then [""]
    else
      var rest := Split(s[1..], sep);
      if s[0] == sep then
        assert s == [sep] + s[1..];
        [""] + rest
      else
        var parts := [[s[0]] + rest[0]] + rest[1..];
        assert s == [s[0]] + s[1..];
        assert |rest| > 1 ==> Join(rest, sep) == rest[0] + [sep] + Join(rest[1..], sep);
        assert |rest| > 1 ==> Join(parts, sep) == parts[0] + [sep] + Join(parts[1..], sep);
        assert parts[1..] == rest[1..];
        parts
  }

  /** Splitting text that holds no separator leaves it whole. */
  lemma {:induction false} SplitNoSeparator(s: string, sep: char)
    requires sep !in s
    ensures Split(s, sep) == [s]
  {
    if |s| > 0 {
      SplitNoSeparator(s[1..], sep);
    }
  }

  /** A separator-free prefix and its separator split off as one part. */
  lemma {:induction false} SplitAfterPart(a: string, sep: char, t: string)
    requires sep !in a
    ensures Split(a + [sep] + t, sep) == [a] + Split(t, sep)
  {
    var s := a + [sep] + t;
    if |a| == 0 {
      assert s == [sep] + t;
      assert s[1..] == t;
    } else {
      assert s[1..] == a[1..] + [sep] + t;
      SplitAfterPart(a[1..], sep, t);
      assert [a[0]] + a[1..] == a;
    }
  }

  /** Splitting undoes joining, for parts that hold no separator. */
  lemma {:induction false} SplitJoin(parts: seq<string>, sep: char)
    requires |parts| > 0
    requires forall i :: 0 <= i < |parts| ==> sep !in parts[i]
    ensures Split(Join(parts, sep), sep) == parts
  {
    if |parts| == 1 {
      SplitNoSeparator(parts[0], sep);
    } else {
      SplitJoin(parts[1..], sep);
      SplitAfterPart(parts[0], sep, Join(parts[1..], sep));
    }
  }

  /** The state `GitHubHelper.__init__` keeps: the two halves of the repository's full name. */
  datatype Helper = Helper(org: string, project: string)

  /** `self.org, self.project = full_name.split('/')`: unpacking fails with ValueError
      unless the name has exactly one slash. */
  function Init(fullName: string): (r: Py<Helper>)
    ensures r.Success? <==> Count(fullName, '/') == 1
    ensures r.Failure? ==> r.error == ValueError
    ensures r.Success? ==> r.value.org + "/" + r.value.project == fullName
    ensures r.Success? ==> '/' !in r.value.org && '/' !in r.value.project
  {
    var parts := Split(fullName, '/');
    if |parts| == 2 then
      assert parts[1..] == [parts[1]];
      assert Join(parts, '/') == parts[0] + ['/'] + parts[1];
      assert "/" == ['/'];
      Success(Helper(parts[0], parts[1]))
    else Failure(ValueError)
  }

  /** `get_organization`. */
  function GetOrganization(h: Helper): string {
    h.org
  }

  /** `get_project`. */
  function GetProject(h: Helper): string {
    h.project
  }

  /** For a full name `org/project` with one slash, the accessors return exactly its two halves. */
  lemma InitOwnerAndName(org: string, project: string)
    requires '/' !in org && '/' !in project
    ensures Init(org + "/" + project).Success?
    ensures GetOrganization(Init(org + "/" + project).value) == org
    ensures GetProject(Init(org + "/" + project).value) == project
  {
    var parts := [org, project];
    assert parts[1..] == [project];
    assert Join(parts, '/') == org + "/" + project;
    SplitJoin(parts, '/');
  }

  /** A creation request as passed to the library. */
  datatype IssueRequest = IssueRequest(title: string, body: string, assignees: seq<string>, labels: seq<string>)

  /** What the library's `create_issue` does with a request: returns an issue or raises. */
  datatype LibraryReply<I> = Issued(issue: I) | Threw(error: Exc)

  /** `create_issue`: the created issue, or `None` when the library raises
      GithubException; any other exception propagates. Assignees and labels default to
      empty lists. */
  function CreateIssue<I>(library: IssueRequest -> LibraryReply<I>, title: string, body: string,
                          assignees: seq<string> := [], labels: seq<string> := []): (r: Py<Option<I>>)
    ensures library(IssueRequest(title, body, assignees, labels)).Issued? ==>
              r == Success(Some(library(IssueRequest(title, body, assignees, labels)).issue))
    ensures r == Success(None) <==> library(IssueRequest(title, body, assignees, labels)) == Threw(GithubException)
    ensures r.Failure? <==> library(IssueRequest(title, body, assignees, labels)).Threw?
                            && library(IssueRequest(title, body, assignees, labels)).error != GithubException
    ensures r.Failure? ==> r.error == library(IssueRequest(title, body, assignees, labels)).error
  {
    match library(IssueRequest(title, body, assignees, labels))
    case Issued(issue) => Success(Some(issue))
    case Threw(e) => if e == GithubException then Success(None) else Failure(e)
  }

  /** The failing-creation test: called without assignees or labels, the library sees
      empty lists, and its GithubException comes back as `None`. */
  lemma CreateIssueDefaultsAndFailure()
    ensures CreateIssue((req: IssueRequest) =>
                          if req == IssueRequest("Test Issue", "Test Body", [], []) then Threw(GithubException)
                          else Issued(0),
                        "Test Issue", "Test Body") == Success(None)
  {
  }

  /** `query_prj`'s login: the text before the first `/` of the repository name. */
  function Login(repo: string): (r: string)
    ensures '/' !in r
    ensures r <= repo
    ensures |r| < |repo| ==> repo[|r|] == '/'
  {
    Split(repo, '/')[0]
  }

  /** Where `query_prj` finds the project in the response. */
  function ProjectPath(scope: string): seq<string> {
    ["data", scope, "projectV2"]
  }

  /** `query_prj` after the request: `{id, title}` of `response.data[scope].projectV2`, or
      `None` when a key on that path is missing or a value on it is not a dict.
      The scope defaults to `organization`. */
  function QueryPrj(response: Json, scope: string := "organization"): (r: Json)
    ensures Lookup(response, ProjectPath(scope)).None? ==> r == Null
    ensures Lookup(response, ProjectPath(scope)).Some? ==>
              var project := Lookup(response, ProjectPath(scope)).value;
              if HasKey(project, "id") && HasKey(project, "title")
              then r == Obj(map["id" := project.fields["id"], "title" := project.fields["title"]])
              else r == Null
  {
    var found :=
      var project :- Walk(response, ProjectPath(scope));
      var id :- Subscript(project, KStr("id"));
      var title :- Subscript(project, KStr("title"));
      Success(Obj(map["id" := id, "title" := title]));
    CatchLookupErrors(found)
  }

  /** Where `add_item_to_prj` finds the new item's id in the response. */
  function ItemIdPath(): seq<string> {
    ["data", "addProjectV2ItemById", "item", "id"]
  }

  /** `add_item_to_prj` after the request: the new item's id, or `None` when the path is broken. */
  function AddItemToPrj(response: Json): (r: Json)
    ensures Lookup(response, ItemIdPath()).Some? ==> r == Lookup(response, ItemIdPath()).value
    ensures Lookup(response, ItemIdPath()).None? ==> r == Null
  {
    CatchLookupErrors(Walk(response, ItemIdPath()))
  }

  /** The query tests: a response holding the organization's project yields its id and
      title; `organization: null` yields `None`. */
  lemma QueryPrjExamples()
    ensures QueryPrj(Obj(map["data" := Obj(map["organization" := Obj(map["projectV2" :=
              Obj(map["id" := Str("proj_123"), "title" := Str("Test Project")])])])]))
            == Obj(map["id" := Str("proj_123"), "title" := Str("Test Project")])
    ensures QueryPrj(Obj(map["data" := Obj(map["organization" := Null])])) == Null
  {
    var project := Obj(map["id" := Str("proj_123"), "title" := Str("Test Project")]);
    var org := Obj(map["projectV2" := project]);
    var data := Obj(map["organization" := org]);
    var response := Obj(map["data" := data]);
    assert ProjectPath("organization")[1..] == ["organization", "projectV2"];
    assert ProjectPath("organization")[1..][1..] == ["projectV2"];
    assert Lookup(org, ["projectV2"]) == Some(project);
    assert Lookup(response, ProjectPath("organization")) == Some(project);
    assert Lookup(Null, ["projectV2"]) == None;
    assert Lookup(Obj(map["data" := Obj(map["organization" := Null])]), ProjectPath("organization")) == None;
  }

  /** The mutation tests: the item id when present, `None` when the mutation result is null. */
  lemma AddItemToPrjExamples()
    ensures AddItemToPrj(Obj(map["data" := Obj(map["addProjectV2ItemById" :=
              Obj(map["item" := Obj(map["id" := Str("item_456")])])])])) == Str("item_456")
    ensures AddItemToPrj(Obj(map["data" := Obj(map["addProjectV2ItemById" := Null])])) == Null
  {
    var item := Obj(map["id" := Str("item_456")]);
    var added := Obj(map["item" := item]);
    var response := Obj(map["data" := Obj(map["addProjectV2ItemById" := added])]);
    var path := ItemIdPath();
    assert path[1..] == ["addProjectV2ItemById", "item", "id"];
    assert path[1..][1..] == ["item", "id"];
    assert path[1..][1..][1..] == ["id"];
    assert Lookup(item, ["id"]) == Some(Str("item_456"));
    assert Lookup(added, ["item", "id"]) == Some(Str("item_456"));
    assert Lookup(response, path) == Some(Str("item_456"));
    assert Lookup(Null, ["item", "id"]) == None;
  }
}

=== FILE: notion_helper.dfy ===
/**
 * The Notion side of the sync: typed accessors over a page's property bag and the
 * conversion of a database query response into flat issue records
 * (utils/NotionHelper.py). The HTTP request itself is not modelled: the decoded
 * response body is an input.
 */
module NotionHelper {
  import opened Wrappers
  import opened PyValue

  /** Property types whose value is a list of text runs, read through the first run's `plain_text`. */
  predicate IsTextType(propType: string) {
    propType in ["title", "rich_text"]
  }

  /** `_get_property`: `props[name][propType]`, then the first run's `plain_text` for
      text types. A missing key or an empty run list yields `None`; a TypeError
      (a value of the wrong shape) is not caught. */
  function GetProperty(props: Json, name: string, propType: string): (r: Py<Json>)
    ensures r.Failure? ==> r.error == TypeError
    // Missing field, or a field without the requested type key: None.
    ensures props.Obj? && name !in props.fields ==> r == Success(Null)
    ensures (Lookup(props, [name]).Some? && Lookup(props, [name]).value.Obj?
             && Lookup(props, [name, propType]).None?) ==> r == Success(Null)
    // A bag or field that is not a dict: the TypeError escapes.
    ensures !props.Obj? ==> r == Failure(TypeError)
    ensures Lookup(props, [name]).Some? && !Lookup(props, [name]).value.Obj? ==> r == Failure(TypeError)
    // Non-text types: the raw value stored under props[name][propType].
    ensures !IsTextType(propType) && Lookup(props, [name, propType]).Some? ==>
              r == Success(Lookup(props, [name, propType]).value)
    // Text types: the first run's plain_text; None for an empty run list.
    ensures IsTextType(propType) && Lookup(props, [name, propType]) == Some(Arr([])) ==> r == Success(Null)
    ensures IsTextType(propType) && Lookup(props, [name, propType]).Some?
            && Lookup(props, [name, propType]).value.Arr? && |Lookup(props, [name, propType]).value.items| > 0
            && Lookup(Lookup(props, [name, propType]).value.items[0], ["plain_text"]).Some? ==>
              r == Success(Lookup(Lookup(props, [name, propType]).value.items[0], ["plain_text"]).value)
    // Text types, the other KeyErrors caught: a first run without `plain_text`, or a dict
    // where the run list belongs (`{}[0]`).
    ensures IsTextType(propType) && Lookup(props, [name, propType]).Some?
            && Lookup(props, [name, propType]).value.Arr? && |Lookup(props, [name, propType]).value.items| > 0
            && Lookup(props, [name, propType]).value.items[0].Obj?
            && Lookup(Lookup(props, [name, propType]).value.items[0], ["plain_text"]).None? ==>
              r == Success(Null)
    ensures (IsTextType(propType) && Lookup(props, [name, propType]).Some?
             && Lookup(props, [name, propType]).value.Obj?) ==> r == Success(Null)
    // Text types, the TypeErrors that escape: a first run that is not a dict, or a value
    // that cannot be indexed by 0 (a non-empty string indexes to a one-character string,
    // which then rejects the key `plain_text`; an empty one is an IndexError, caught).
    ensures (IsTextType(propType) && Lookup(props, [name, propType]).Some?
             && Lookup(props, [name, propType]).value.Arr? && |Lookup(props, [name, propType]).value.items| > 0
             && !Lookup(props, [name, propType]).value.items[0].Obj?) ==> r == Failure(TypeError)
    ensures IsTextType(propType) && Lookup(props, [name, propType]) == Some(Str("")) ==> r == Success(Null)
    ensures (IsTextType(propType) && Lookup(props, [name, propType]).Some?
             && !Lookup(props, [name, propType]).value.Arr? && !Lookup(props, [name, propType]).value.Obj?
             && Lookup(props, [name, propType]) != Some(Str(""))) ==> r == Failure(TypeError)
  {
    LookupKeys(props, name, propType);
    var fetched :=
      var field :- Subscript(props, KStr(name));
      var prop :- Subscript(field, KStr(propType));
      if IsTextType(propType) then
        var run :- Subscript(prop, KInt(0));
        Subscript(run, KStr("plain_text"))
      else Success(prop);
    if fetched.Failure? && (fetched.error == KeyError || fetched.error == IndexError)
    then Success(Null)
    else fetched
  }

  /** `_get_property(props, name, propType) or ""`, the shape shared by `get_title` and
      `get_rich_text`. */
  function TextOrEmpty(props: Json, name: string, propType: string): (r: Py<Json>)
    ensures r.Failure? <==> GetProperty(props, name, propType).Failure?
    ensures r.Success? ==> r.value == Str("") || Truthy(r.value)
    ensures r.Success? ==> (r.value == Str("") <==> !Truthy(GetProperty(props, name, propType).value))
    ensures r.Success? && Truthy(r.value) ==> r.value == GetProperty(props, name, propType).value
    // A string (or absent) property always comes back as a string.
    ensures r.Success? && (GetProperty(props, name, propType).value.Str? || GetProperty(props, name, propType).value.Null?) ==>
              r.value.Str?
  {
    var text :- GetProperty(props, name, propType);
    Success(Or(text, Str("")))
  }

  /** `get_title`. */
  function GetTitle(props: Json, name: string): Py<Json> {
    TextOrEmpty(props, name, "title")
  }

  /** `get_rich_text`. */
  function GetRichText(props: Json, name: string): Py<Json> {
    TextOrEmpty(props, name, "rich_text")
  }

  /** `get_number`: the value stored under `number`, or `None` when the field or key is absent. */
  function GetNumber(props: Json, name: string): (r: Py<Json>)
    ensures props.Obj? && name !in props.fields ==> r == Success(Null)
    ensures (Lookup(props, [name]).Some? && Lookup(props, [name]).value.Obj?
             && Lookup(props, [name, "number"]).None?) ==> r == Success(Null)
    ensures Lookup(props, [name, "number"]).Some? ==> r == Success(Lookup(props, [name, "number"]).value)
    ensures r.Failure? ==> r.error == TypeError
  {
    GetProperty(props, name, "number")
  }

  /** `item["name"]` for each option, left to right, stopping at the first exception. */
  function OptionNames(items: seq<Json>): (r: Py<seq<Json>>)
    ensures r.Success? <==> forall i :: 0 <= i < |items| ==> Subscript(items[i], KStr("name")).Success?
    ensures r.Failure? ==> r.error == KeyError || r.error == TypeError
    ensures r.Success? ==> |r.value| == |items|
    ensures r.Success? ==> forall i :: 0 <= i < |items| ==> Subscript(items[i], KStr("name")) == Success(r.value[i])
    // The first option that fails decides the exception.
    ensures forall i :: (0 <= i < |items| && Subscript(items[i], KStr("name")).Failure?
                         && (forall j :: 0 <= j < i ==> Subscript(items[j], KStr("name")).Success?)) ==>
              r == Failure(Subscript(items[i], KStr("name")).error)
  {
    if |items| == 0 then Success([])
    else
      var first :- Subscript(items[0], KStr("name"));
      var rest :- OptionNames(items[1..]);
      assert forall i :: 1 <= i < |items| ==> items[i] == items[1..][i - 1];
      Success([first] + rest)
  }

  /** The list comprehension `[item["name"] for item in v]`. Iterating a dict yields its
      keys and iterating a string its characters, and `"..."["name"]` is a TypeError, so
      only an empty dict or string iterates without error; iterating a scalar or `None`
      is a TypeError. */
  function NamesOf(v: Json): (r: Py<seq<Json>>)
    ensures v.Arr? ==> r == OptionNames(v.items)
    // A value that is not a list iterates without error only when it is an empty dict
    // or string, and then yields no names.
    ensures !v.Arr? ==> (r.Success? <==> (v.Obj? || v.Str?) && !Truthy(v))
    ensures !v.Arr? && r.Success? ==> r.value == []
    ensures !v.Arr? && r.Failure? ==> r.error == TypeError
    ensures r.Failure? ==> r.error == KeyError || r.error == TypeError
  {
    match v
    case Arr(items) => OptionNames(items)
    case Obj(m) => if |m| == 0 then Success([]) else Failure(TypeError)
    case Str(s) => if |s| == 0 then Success([]) else Failure(TypeError)
    case _ => Failure(TypeError)
  }

  /** `get_multi_select`: option names in source order; `[]` when a KeyError occurs anywhere
      (missing field, missing `multi_select`, or an option without `name`). */
  function GetMultiSelect(props: Json, name: string): (r: Py<seq<Json>>)
    ensures r.Failure? ==> r.error == TypeError
    ensures props.Obj? && name !in props.fields ==> r == Success([])
    ensures (Lookup(props, [name]).Some? && Lookup(props, [name]).value.Obj?
             && Lookup(props, [name, "multi_select"]).None?) ==> r == Success([])
    // A list of options: the names in order, or [] when some option lacks `name`.
    ensures Lookup(props, [name, "multi_select"]).Some? && Lookup(props, [name, "multi_select"]).value.Arr? ==>
              var names := OptionNames(Lookup(props, [name, "multi_select"]).value.items);
              r == (if names == Failure(KeyError) then Success([]) else names)
    // Anything else is not caught: a bag or field that is not a dict raises TypeError,
    // and a `multi_select` value that is not a list iterates as `NamesOf` says.
    ensures !props.Obj? ==> r == Failure(TypeError)
    ensures Lookup(props, [name]).Some? && !Lookup(props, [name]).value.Obj? ==> r == Failure(TypeError)
    ensures Lookup(props, [name, "multi_select"]).Some? && !Lookup(props, [name, "multi_select"]).value.Arr? ==>
              r == NamesOf(Lookup(props, [name, "multi_select"]).value)
  {
    LookupKeys(props, name, "multi_select");
    var names :=
      var field :- Subscript(props, KStr(name));
      var options :- Subscript(field, KStr("multi_select"));
      NamesOf(options);
    if names.Failure? && names.error == KeyError then Success([]) else names
  }

  /** A flat issue record built from one database page. */
  datatype NotionIssue = NotionIssue(
    title: Json,
    description: Json,
    assignees: seq<Json>,
    labels: seq<Json>,
    projectNumber: Json)

  /** `reversed(results)` followed by iteration. An empty dict or string yields nothing;
      a non-empty one yields strings, on which the loop's `.get` is an AttributeError;
      a scalar or `None` cannot be reversed. */
  function ReversedEntries(results: Json): (r: Py<seq<Json>>)
    // A list is visited last element first.
    ensures results.Arr? ==> r.Success? && |r.value| == |results.items|
    ensures results.Arr? ==> forall i :: 0 <= i < |results.items| ==>
              r.value[i] == results.items[|results.items| - 1 - i]
    // Anything else iterates without error only when it is an empty dict or string,
    // and then yields nothing.
    ensures !results.Arr? ==> (r.Success? <==> (results.Obj? || results.Str?) && !Truthy(results))
    ensures r.Success? && !results.Arr? ==> r.value == []
    ensures r.Failure? ==> r.error == (if results.Obj? || results.Str? then AttributeError else TypeError)
  {
    match results
    case Arr(items) => Success(Reverse(items))
    case Obj(m) => if |m| == 0 then Success([]) else Failure(AttributeError)
    case Str(s) => if |s| == 0 then Success([]) else Failure(AttributeError)
    case _ => Failure(TypeError)
  }

  /** The elements of a sequence, last first. */
  function Reverse<T>(s: seq<T>): (r: seq<T>)
    ensures |r| == |s|
    ensures forall i :: 0 <= i < |s| ==> r[i] == s[|s| - 1 - i]
  {
    if |s| == 0 then [] else Reverse(s[1..]) + [s[0]]
  }

  /** Every entry's step succeeds. */
  predicate AllSucceed<T>(step: Json -> Py<Option<T>>, entries: seq<Json>) {
    forall i :: 0 <= i < |entries| ==> step(entries[i]).Success?
  }

  /** If every step succeeds on the reverse of a list, every step succeeds on the list. */
  lemma StepsSucceedFromReversed<T>(step: Json -> Py<Option<T>>, pages: seq<Json>)
    ensures AllSucceed(step, Reverse(pages)) ==> AllSucceed(step, pages)
  {
    var rev := Reverse(pages);
    if AllSucceed(step, rev) {
      forall i | 0 <= i < |pages|
        ensures step(pages[i]).Success?
      {
        assert rev[|pages| - 1 - i] == pages[i];
      }
    }
  }

  /** If every step succeeds on a list, every step succeeds on its reverse. */
  lemma StepsSucceedOnReversed<T>(step: Json -> Py<Option<T>>, pages: seq<Json>)
    ensures AllSucceed(step, pages) ==> AllSucceed(step, Reverse(pages))
  {
    var rev := Reverse(pages);
    if AllSucceed(step, pages) {
      forall j | 0 <= j < |pages|
        ensures step(rev[j]).Success?
      {
        assert rev[j] == pages[|pages| - 1 - j];
      }
    }
  }

  /** On a list, every step succeeds on the list exactly when every step succeeds on its reverse. */
  lemma ReversedStepsSucceed<T>(step: Json -> Py<Option<T>>, results: Json)
    ensures results.Arr? ==> (AllSucceed(step, Reverse(results.items)) <==> AllSucceed(step, results.items))
  {
    if results.Arr? {
      StepsSucceedFromReversed(step, results.items);
      StepsSucceedOnReversed(step, results.items);
    }
  }

  /** Runs `step` over `entries` in order, keeping the records it produces and skipping
      the entries it declines; the first exception aborts the whole loop. */
  function CollectSome<T>(step: Json -> Py<Option<T>>, entries: seq<Json>): (r: Py<seq<T>>)
    ensures r.Success? <==> forall i :: 0 <= i < |entries| ==> step(entries[i]).Success?
    ensures r.Success? ==> |r.value| <= |entries|
    ensures r.Success? ==> forall k :: 0 <= k < |r.value| ==>
              exists i :: 0 <= i < |entries| && step(entries[i]) == Success(Some(r.value[k]))
    ensures r.Success? ==> forall i :: 0 <= i < |entries| && step(entries[i]).value.Some? ==>
              step(entries[i]).value.value in r.value
    ensures forall i :: (0 <= i < |entries| && step(entries[i]).Failure?
                         && (forall j :: 0 <= j < i ==> step(entries[j]).Success?)) ==>
              r == Failure(step(entries[i]).error)
  {
    if |entries| == 0 then Success([])
    else
      var head :- step(entries[0]);
      var rest :- CollectSome(step, entries[1..]);
      assert forall i :: 1 <= i < |entries| ==> entries[i] == entries[1..][i - 1];
      Success((if head.Some? then [head.value] else []) + rest)
  }

  /** One iteration of the loop in `get_notion_issues`: `None` when the page has no
      properties or an empty title. */
  function PageIssue(entry: Json): (r: Py<Option<NotionIssue>>)
    ensures !entry.Obj? ==> r == Failure(AttributeError)
    ensures entry.Obj? && DictGet(entry, "properties") == Success(Null) ==> r == Success(None)
    ensures r.Success? && r.value.Some? ==> Truthy(r.value.value.title)
    ensures r.Success? && r.value.Some? ==>
              var props := entry.fields["properties"];
              var issue := r.value.value;
              && props != Null
              && Success(issue.title) == GetTitle(props, "Title")
              && Success(issue.description) == GetRichText(props, "Discription")
              && Success(issue.assignees) == GetMultiSelect(props, "Assignees")
              && Success(issue.labels) == GetMultiSelect(props, "Labels")
              && Success(issue.projectNumber) == GetNumber(props, "ProjectNumber")
    ensures entry.Obj? && r == Success(None) ==>
              DictGet(entry, "properties") == Success(Null)
              || GetTitle(entry.fields["properties"], "Title") == Success(Str(""))
    // A page with properties and an empty title is skipped.
    ensures (entry.Obj? && DictGet(entry, "properties").value != Null
             && GetTitle(entry.fields["properties"], "Title") == Success(Str(""))) ==> r == Success(None)
    // A page with properties, a non-empty title and readable fields is kept.
    ensures (entry.Obj? && DictGet(entry, "properties").value != Null) ==>
              var props := entry.fields["properties"];
              (GetTitle(props, "Title").Success? && Truthy(GetTitle(props, "Title").value)
               && GetRichText(props, "Discription").Success?
               && GetMultiSelect(props, "Assignees").Success? && GetMultiSelect(props, "Labels").Success?
               && GetNumber(props, "ProjectNumber").Success?) ==> r.Success? && r.value.Some?
    // On a page with properties, only an accessor's TypeError can stop the loop.
    ensures entry.Obj? && r.Failure? ==> r.error == TypeError
  {
    var props :- DictGet(entry, "properties");
    if props == Null then Success(None)
    else
      var title :- GetTitle(props, "Title");
      if !Truthy(title) then Success(None)
      else
        var description :- GetRichText(props, "Discription");
        var assignees :- GetMultiSelect(props, "Assignees");
        var labels :- GetMultiSelect(props, "Labels");
        var projectNumber :- GetNumber(props, "ProjectNumber");
        Success(Some(NotionIssue(title, description, assignees, labels, projectNumber)))
  }

  /** `get_notion_issues` from the decoded response body on: the `results` list walked in
      reverse, one record per page with properties and a non-empty title. */
  function GetNotionIssues(response: Json): (r: Py<seq<NotionIssue>>)
    ensures !response.Obj? ==> r == Failure(TypeError)
    ensures response.Obj? && "results" !in response.fields ==> r == Failure(KeyError)
    ensures Lookup(response, ["results"]).Some? && Lookup(response, ["results"]).value.Arr? && r.Success? ==>
              |r.value| <= |Lookup(response, ["results"]).value.items|
    ensures r.Success? ==> forall k :: 0 <= k < |r.value| ==> Truthy(r.value[k].title)
    // On a `results` list: success exactly when every page's step succeeds, and every
    // record is the one some page yields.
    ensures Lookup(response, ["results"]).Some? && Lookup(response, ["results"]).value.Arr? ==>
              var pages := Lookup(response, ["results"]).value.items;
              (r.Success? <==> forall i :: 0 <= i < |pages| ==> PageIssue(pages[i]).Success?)
              && (r.Success? ==> forall k :: 0 <= k < |r.value| ==>
                    exists i :: 0 <= i < |pages| && PageIssue(pages[i]) == Success(Some(r.value[k])))
  {
    LookupKey(response, "results");
    var results :- Subscript(response, KStr("results"));
    var entries :- ReversedEntries(results);
    ReversedStepsSucceed(PageIssue, results);
    CollectSome(PageIssue, entries)
  }

  /** The records of a sequence of results, whatever order they were produced in:
      the exception of the first, or the concatenation. */
  function Chain<T>(first: Py<seq<T>>, second: Py<seq<T>>): (r: Py<seq<T>>)
    ensures first.Failure? ==> r == first
    ensures first.Success? && second.Failure? ==> r == Failure(second.error)
    ensures first.Success? && second.Success? ==> r == Success(first.value + second.value)
  {
    var a :- first;
    var b :- second;
    Success(a + b)
  }

  /** The records one step contributes: none when it declines the entry. */
  function Kept<T>(r: Py<Option<T>>): Py<seq<T>> {
    var o :- r;
    Success(if o.Some? then [o.value] else [])
  }

  lemma ReverseAppend<T>(a: seq<T>, b: seq<T>)
    ensures Reverse(a + b) == Reverse(b) + Reverse(a)
  {
    assert forall i :: 0 <= i < |a| + |b| ==> Reverse(a + b)[i] == (Reverse(b) + Reverse(a))[i];
  }

  /** The loop over `a + b` is the loop over `a` followed by the loop over `b`. */
  lemma {:induction false} CollectSomeAppend<T>(step: Json -> Py<Option<T>>, a: seq<Json>, b: seq<Json>)
    ensures CollectSome(step, a + b) == Chain(CollectSome(step, a), CollectSome(step, b))
  {
    if |a| == 0 {
      assert a + b == b;
      var rb := CollectSome(step, b);
      if rb.Success? {
        assert [] + rb.value == rb.value;
      }
    } else {
      assert (a + b)[0] == a[0];
      assert (a + b)[1..] == a[1..] + b;
      CollectSomeAppend(step, a[1..], b);
      var head := step(a[0]);
      if head.Success? {
        var kept := if head.value.Some? then [head.value.value] else [];
        var restA := CollectSome(step, a[1..]);
        var restB := CollectSome(step, b);
        if restA.Success? && restB.Success? {
          assert kept + (restA.value + restB.value) == (kept + restA.value) + restB.value;
        }
      }
    }
  }

  lemma CollectSomeSingle<T>(step: Json -> Py<Option<T>>, x: Json)
    ensures CollectSome(step, [x]) == Kept(step(x))
  {
    assert [x][1..] == [];
    assert CollectSome(step, [x][1..]) == Success([]);
    if step(x).Success? {
      var kept := if step(x).value.Some? then [step(x).value.value] else [];
      assert kept + [] == kept;
    }
  }

  /** `get_notion_issues` on any response body whose `results` is a list is the loop over
      those pages, last first; the body's other keys play no part. */
  lemma GetNotionIssuesOfPages(response: Json, pages: seq<Json>)
    requires Lookup(response, ["results"]) == Some(Arr(pages))
    ensures GetNotionIssues(response) == CollectSome(PageIssue, Reverse(pages))
  {
    LookupKey(response, "results");
  }

  /** The last page of the response is the first one processed: its record, if any,
      comes before the records of all earlier pages. `shorter` is any body whose
      `results` lacks that last page. */
  lemma LastPageFirst(response: Json, shorter: Json, pages: seq<Json>, x: Json)
    requires Lookup(response, ["results"]) == Some(Arr(pages + [x]))
    requires Lookup(shorter, ["results"]) == Some(Arr(pages))
    ensures GetNotionIssues(response) == Chain(Kept(PageIssue(x)), GetNotionIssues(shorter))
  {
    GetNotionIssuesOfPages(response, pages + [x]);
    GetNotionIssuesOfPages(shorter, pages);
    ReverseAppend(pages, [x]);
    assert Reverse([x]) == [x];
    CollectSomeAppend(PageIssue, [x], Reverse(pages));
    CollectSomeSingle(PageIssue, x);
  }

  /** The first page of the response is the last one processed: its record, if any,
      comes after the records of all later pages. */
  lemma FirstPageLast(response: Json, shorter: Json, x: Json, pages: seq<Json>)
    requires Lookup(response, ["results"]) == Some(Arr([x] + pages))
    requires Lookup(shorter, ["results"]) == Some(Arr(pages))
    ensures GetNotionIssues(response) == Chain(GetNotionIssues(shorter), Kept(PageIssue(x)))
  {
    GetNotionIssuesOfPages(response, [x] + pages);
    GetNotionIssuesOfPages(shorter, pages);
    ReverseAppend([x], pages);
    assert Reverse([x]) == [x];
    CollectSomeAppend(PageIssue, Reverse(pages), [x]);
    CollectSomeSingle(PageIssue, x);
  }

  /** A page without properties (or with `properties: null`) is skipped, wherever it sits. */
  lemma PageWithoutPropertiesSkipped(response: Json, shorter: Json, before: seq<Json>, x: Json, after: seq<Json>)
    requires DictGet(x, "properties") == Success(Null)
    requires Lookup(response, ["results"]) == Some(Arr(before + [x] + after))
    requires Lookup(shorter, ["results"]) == Some(Arr(before + after))
    ensures GetNotionIssues(response) == GetNotionIssues(shorter)
  {
    GetNotionIssuesOfPages(response, before + [x] + after);
    GetNotionIssuesOfPages(shorter, before + after);
    ReverseAppend(before + [x], after);
    ReverseAppend(before, [x]);
    ReverseAppend(before, after);
    assert Reverse([x]) == [x];
    assert Reverse(before + [x] + after) == Reverse(after) + ([x] + Reverse(before));
    CollectSomeAppend(PageIssue, Reverse(after), [x] + Reverse(before));
    CollectSomeAppend(PageIssue, [x], Reverse(before));
    CollectSomeAppend(PageIssue, Reverse(after), Reverse(before));
    CollectSomeSingle(PageIssue, x);
    assert Kept(PageIssue(x)) == Success([]);
    var rb := CollectSome(PageIssue, Reverse(before));
    if rb.Success? {
      assert [] + rb.value == rb.value;
    }
  }

  /** With every option named, `get_multi_select` returns all names in source order. */
  lemma MultiSelectNamesInOrder(props: Json, name: string, items: seq<Json>)
    requires Lookup(props, [name, "multi_select"]) == Some(Arr(items))
    requires forall i :: 0 <= i < |items| ==> HasKey(items[i], "name")
    ensures GetMultiSelect(props, name).Success?
    ensures |GetMultiSelect(props, name).value| == |items|
    ensures forall i :: 0 <= i < |items| ==> GetMultiSelect(props, name).value[i] == items[i].fields["name"]
  {
    assert forall i :: 0 <= i < |items| ==> Subscript(items[i], KStr("name")).Success?;
  }

  /** One option without `name`, reached before any other failure, empties the whole list. */
  lemma MultiSelectUnnamedOptionDropsAll(props: Json, name: string, items: seq<Json>, i: nat)
    requires Lookup(props, [name, "multi_select"]) == Some(Arr(items))
    requires i < |items| && items[i].Obj? && !HasKey(items[i], "name")
    requires forall j :: 0 <= j < i ==> HasKey(items[j], "name")
    ensures GetMultiSelect(props, name) == Success([])
  {
    assert Subscript(items[i], KStr("name")) == Failure(KeyError);
    assert forall j :: 0 <= j < i ==> Subscript(items[j], KStr("name")).Success?;
  }
}

=== FILE: pyvalue.dfy ===
/**
 * Python values as produced by decoding a JSON document, and the few pieces of
 * Python semantics the sync script relies on: subscripting, `dict.get`,
 * truthiness and the exceptions these raise.
 */
module PyValue {
  import opened Wrappers

  /** A decoded JSON value. Python's `None` and JSON's `null` are the same value, `Null`.
      Numbers are integers; floating point is not modelled. */
  datatype Json =
    | Null
    | Bool(b: bool)
    | Num(n: int)
    | Str(s: string)
    | Arr(items: seq<Json>)
    | Obj(fields: map<string, Json>)

  /** The Python exceptions that the modelled code raises, catches or lets escape. */
  datatype Exc =
    | KeyError
    | IndexError
    | TypeError
    | AttributeError
    | ValueError
    | GithubException
    | DatabaseError

  /** The outcome of a Python expression: a value, or the exception it raised. */
  type Py<T> = Result<T, Exc>

  /** A subscript key: `x["name"]` or `x[0]`. */
  datatype Key = KStr(k: string) | KInt(i: int)

  /** Python truthiness: `None`, `False`, `0`, `""`, `[]` and `{}` are false. */
  predicate Truthy(v: Json) {
    match v
    case Null => false
    case Bool(b) => b
    case Num(n) => n != 0
    case Str(s) => |s| > 0
    case Arr(a) => |a| > 0
    case Obj(m) => |m| > 0
  }

  /** Python's `x or y`. */
  function Or(x: Json, y: Json): (r: Json)
    ensures Truthy(x) ==> r == x
    ensures !Truthy(x) ==> r == y
  {
    if Truthy(x) then x else y
  }

  /** `v` is a dict holding `key`. */
  predicate HasKey(v: Json, key: string) {
    v.Obj? && key in v.fields
  }

  /** Python's `v[key]` on a decoded JSON value. Negative list indices count from the end. */
  function Subscript(v: Json, key: Key): (r: Py<Json>)
    // A string key succeeds exactly on a dict that holds it.
    ensures key.KStr? ==> (r.Success? <==> v.Obj? && key.k in v.fields)
    ensures key.KStr? && r.Success? ==> r.value == v.fields[key.k]
    // A string key on a dict that lacks it is a KeyError; on anything else a TypeError.
    ensures key.KStr? && r.Failure? ==> r.error == (if v.Obj? then KeyError else TypeError)
    // Lists and strings indexed out of range raise IndexError.
    ensures key.KInt? && (v.Arr? || v.Str?) && r.Failure? ==>
              r.error == IndexError && !(-Len(v) <= key.i < Len(v))
  {
    match v
    case Obj(m) =>
      if key.KStr? && key.k in m then Success(m[key.k]) else Failure(KeyError)
    case Arr(a) =>
      if key.KStr? then Failure(TypeError)
      else if 0 <= key.i < |a| then Success(a[key.i])
      else if -|a| <= key.i < 0 then Success(a[|a| + key.i])
      else Failure(IndexError)
    case Str(s) =>
      if key.KStr? then Failure(TypeError)
      else if 0 <= key.i < |s| then Success(Str([s[key.i]]))
      else if -|s| <= key.i < 0 then Success(Str([s[|s| + key.i]]))
      else Failure(IndexError)
    case _ => Failure(TypeError)
  }

  /** Length of a list or string value (zero for anything else). */
  function Len(v: Json): int {
    match v
    case Arr(a) => |a|
    case Str(s) => |s|
    case _ => 0
  }

  /** Python's `v.get(key)`: only dicts have it; a missing key gives `None`. */
  function DictGet(v: Json, key: string): (r: Py<Json>)
    ensures r.Failure? <==> !v.Obj?
    ensures r.Failure? ==> r.error == AttributeError
    ensures v.Obj? && key !in v.fields ==> r == Success(Null)
    ensures v.Obj? && key in v.fields ==> r == Success(v.fields[key])
  {
    if v.Obj? then Success(if key in v.fields then v.fields[key] else Null)
    else Failure(AttributeError)
  }

  /** Python's chained subscript `v[path[0]][path[1]]...` with string keys. */
  function Walk(v: Json, path: seq<string>): (r: Py<Json>)
    ensures r.Success? <==> Lookup(v, path).Some?
    ensures r.Success? ==> r.value == Lookup(v, path).value
    ensures r.Failure? ==> r.error == KeyError || r.error == TypeError
    decreases |path|
  {
    if |path| == 0 then Success(v)
    else
      var child :- Subscript(v, KStr(path[0]));
      Walk(child, path[1..])
  }

  /** The value found by following dict keys along `path`, if every key is present
      in a dict. This is the shape-level reading of a JSON path, independent of
      how Python signals a failed step. */
  function Lookup(v: Json, path: seq<string>): Option<Json>
    decreases |path|
  {
    if |path| == 0 then Some(v)
    else if v.Obj? && path[0] in v.fields then Lookup(v.fields[path[0]], path[1..])
    else None
  }

  /** Unfolds a one-key path into a single dict lookup. */
  lemma LookupKey(v: Json, a: string)
    ensures Lookup(v, [a]) == (if v.Obj? && a in v.fields then Some(v.fields[a]) else None)
  {
    assert [a][1..] == [];
  }

  /** Unfolds a one- and a two-key path into single dict lookups. */
  lemma LookupKeys(v: Json, a: string, b: string)
    ensures Lookup(v, [a]) == (if v.Obj? && a in v.fields then Some(v.fields[a]) else None)
    ensures Lookup(v, [a, b]) ==
              (if v.Obj? && a in v.fields then Lookup(v.fields[a], [b]) else None)
    ensures v.Obj? && a in v.fields ==>
              Lookup(v.fields[a], [b]) ==
                (if v.fields[a].Obj? && b in v.fields[a].fields then Some(v.fields[a].fields[b]) else None)
  {
    assert [a][1..] == [];
    assert [a, b][1..] == [b];
    if v.Obj? && a in v.fields {
      assert [b][1..] == [];
    }
  }

  /** `try: ... except (KeyError, TypeError): return None`. */
  function CatchLookupErrors(r: Py<Json>): (c: Json)
    requires r.Success? || r.error == KeyError || r.error == TypeError
    ensures r.Success? ==> c == r.value
    ensures r.Failure? ==> c == Null
  {
    if r.Success? then r.value else Null
  }
}

=== FILE: script.dfy ===
/**
 * The sync driver (script.py): build issue records from the Notion query results,
 * then create every record whose title is not already an issue title in the
 * repository. The Notion request, the repository lookup and the creation call are
 * inputs: the decoded `results` value, a snapshot of existing titles, and the
 * reply the creation call gives to each successive request.
 */
module Script {
  import opened Wrappers
  import opened PyValue
  import opened NotionHelper

  /** A record as the driver builds it: there is no project number here. */
  datatype ScriptIssue = ScriptIssue(title: Json, description: Json, assignees: seq<Json>, labels: seq<Json>)

  /** One iteration of the record-building loop. A page without properties aborts the
      run; a page with an empty title is skipped. The accessors are those of
      NotionHelper, applied to the page's property bag. */
  function ScriptPage(entry: Json): (r: Py<Option<ScriptIssue>>)
    ensures !entry.Obj? ==> r == Failure(AttributeError)
    ensures entry.Obj? && DictGet(entry, "properties") == Success(Null) ==> r == Failure(DatabaseError)
    ensures r.Success? && r.value.Some? ==> r.value.value.title != Str("") && Truthy(r.value.value.title)
    ensures r == Success(None) ==> GetTitle(entry.fields["properties"], "Title") == Success(Str(""))
    ensures r.Success? && r.value.Some? ==>
              var props := entry.fields["properties"];
              var issue := r.value.value;
              && Success(issue.title) == GetTitle(props, "Title")
              && Success(issue.description) == GetRichText(props, "Discription")
              && Success(issue.assignees) == GetMultiSelect(props, "Assignees")
              && Success(issue.labels) == GetMultiSelect(props, "Labels")
    // A page with properties, a non-empty title and readable fields yields a record.
    ensures (entry.Obj? && DictGet(entry, "properties").value != Null) ==>
              var props := entry.fields["properties"];
              (GetTitle(props, "Title").Success? && GetTitle(props, "Title").value != Str("")
               && GetRichText(props, "Discription").Success?
               && GetMultiSelect(props, "Assignees").Success? && GetMultiSelect(props, "Labels").Success?)
              ==> r.Success? && r.value.Some?
    // A page with properties and an empty title is skipped.
    ensures (entry.Obj? && DictGet(entry, "properties").value != Null
             && GetTitle(entry.fields["properties"], "Title") == Success(Str(""))) ==> r == Success(None)
    // On a page with properties, only an accessor's TypeError can stop the loop.
    ensures entry.Obj? && DictGet(entry, "properties").value != Null && r.Failure? ==> r.error == TypeError
  {
    var props :- DictGet(entry, "properties");
    if props == Null then Failure(DatabaseError)
    else
      var title :- GetTitle(props, "Title");
      if title == Str("") then Success(None)
      else
        var description :- GetRichText(props, "Discription");
        var assignees :- GetMultiSelect(props, "Assignees");
        var labels :- GetMultiSelect(props, "Labels");
        Success(Some(ScriptIssue(title, description, assignees, labels)))
  }

  /** The record-building loop over `reversed(notion_issues)`. */
  function BuildIssues(notionIssues: Json): (r: Py<seq<ScriptIssue>>)
    ensures notionIssues.Arr? ==> r == CollectSome(ScriptPage, Reverse(notionIssues.items))
    ensures r.Success? ==> forall k :: 0 <= k < |r.value| ==> r.value[k].title != Str("")
    // A page without properties anywhere in the list makes the whole build fail.
    ensures notionIssues.Arr? && (exists i :: 0 <= i < |notionIssues.items|
                                   && DictGet(notionIssues.items[i], "properties") == Success(Null)) ==>
              r.Failure?
  {
    PageWithoutPropertiesFailsBuild(notionIssues);
    var entries :- ReversedEntries(notionIssues);
    CollectSome(ScriptPage, entries)
  }

  lemma PageWithoutPropertiesFailsBuild(notionIssues: Json)
    ensures notionIssues.Arr? && (exists i :: 0 <= i < |notionIssues.items|
                                   && DictGet(notionIssues.items[i], "properties") == Success(Null)) ==>
              CollectSome(ScriptPage, Reverse(notionIssues.items)).Failure?
  {
    if notionIssues.Arr? && (exists i :: 0 <= i < |notionIssues.items|
                              && DictGet(notionIssues.items[i], "properties") == Success(Null)) {
      var pages := notionIssues.items;
      var i :| 0 <= i < |pages| && DictGet(pages[i], "properties") == Success(Null);
      assert Reverse(pages)[|pages| - 1 - i] == pages[i];
      assert ScriptPage(Reverse(pages)[|pages| - 1 - i]).Failure?;
    }
  }

  /** The project number is the only field the driver does not carry over. */
  function WithoutProjectNumber(issue: NotionIssue): ScriptIssue {
    ScriptIssue(issue.title, issue.description, issue.assignees, issue.labels)
  }

  function Strip(issues: seq<NotionIssue>): (r: seq<ScriptIssue>)
    ensures |r| == |issues|
    ensures forall k :: 0 <= k < |issues| ==> r[k] == WithoutProjectNumber(issues[k])
  {
    if |issues| == 0 then [] else [WithoutProjectNumber(issues[0])] + Strip(issues[1..])
  }

  function MapRecords(r: Py<seq<NotionIssue>>): Py<seq<ScriptIssue>> {
    var issues :- r;
    Success(Strip(issues))
  }

  /** A page that has a property bag, and whose project number the helper can read. The
      driver never reads the project number, so a `ProjectNumber` field of the wrong
      shape (a TypeError in the helper) is the one place the two loops part ways. */
  predicate PropertiesWithReadableNumber(entry: Json) {
    && DictGet(entry, "properties").Success?
    && DictGet(entry, "properties").value != Null
    && GetNumber(DictGet(entry, "properties").value, "ProjectNumber").Success?
  }

  /** On a page with properties, the driver and `get_notion_issues` agree: same
      decision, same exception, same fields apart from the project number. The
      driver's `title == ""` test and the helper's `not title` test coincide because
      `get_title` never returns a false value other than `""`. */
  lemma ScriptPageAgreesWithHelper(entry: Json)
    requires PropertiesWithReadableNumber(entry)
    ensures ScriptPage(entry).Failure? <==> PageIssue(entry).Failure?
    ensures ScriptPage(entry).Failure? ==> ScriptPage(entry).error == PageIssue(entry).error
    ensures ScriptPage(entry).Success? ==>
              ScriptPage(entry).value.Some? == PageIssue(entry).value.Some?
    ensures ScriptPage(entry).Success? && ScriptPage(entry).value.Some? ==>
              ScriptPage(entry).value.value == WithoutProjectNumber(PageIssue(entry).value.value)
  {
    var props := entry.fields["properties"];
    assert DictGet(entry, "properties") == Success(props);
    var title := GetTitle(props, "Title");
    if title.Success? && title.value != Str("") {
      assert Truthy(title.value);
      var description := GetRichText(props, "Discription");
      var assignees := GetMultiSelect(props, "Assignees");
      var labels := GetMultiSelect(props, "Labels");
      if description.Success? && assignees.Success? && labels.Success? {
        var projectNumber := GetNumber(props, "ProjectNumber");
        if projectNumber.Success? {
          assert PageIssue(entry) == Success(Some(NotionIssue(title.value, description.value, assignees.value,
                                                              labels.value, projectNumber.value)));
        }
      }
    } else if title.Success? {
      assert !Truthy(title.value);
    }
  }

  /** One step of the loop: the first entry's records, then the rest. */
  lemma CollectSomeCons<T>(step: Json -> Py<Option<T>>, entries: seq<Json>)
    requires |entries| > 0
    ensures CollectSome(step, entries) == Chain(Kept(step(entries[0])), CollectSome(step, entries[1..]))
  {
    assert entries == [entries[0]] + entries[1..];
    CollectSomeAppend(step, [entries[0]], entries[1..]);
    CollectSomeSingle(step, entries[0]);
  }

  /** When every page has properties, the driver builds exactly the records
      `get_notion_issues` returns, minus the project number. */
  lemma {:induction false} BuildAgreesWithHelper(entries: seq<Json>)
    requires forall i :: 0 <= i < |entries| ==> PropertiesWithReadableNumber(entries[i])
    ensures CollectSome(ScriptPage, entries) == MapRecords(CollectSome(PageIssue, entries))
  {
    if |entries| == 0 {
      assert Strip([]) == [];
    } else {
      ScriptPageAgreesWithHelper(entries[0]);
      BuildAgreesWithHelper(entries[1..]);
      CollectSomeCons(ScriptPage, entries);
      CollectSomeCons(PageIssue, entries);
      KeptWithoutProjectNumber(entries[0]);
      MapRecordsChain(Kept(PageIssue(entries[0])), CollectSome(PageIssue, entries[1..]));
    }
  }

  lemma KeptWithoutProjectNumber(entry: Json)
    requires PropertiesWithReadableNumber(entry)
    ensures Kept(ScriptPage(entry)) == MapRecords(Kept(PageIssue(entry)))
  {
    ScriptPageAgreesWithHelper(entry);
    var h := PageIssue(entry);
    if h.Success? && h.value.Some? {
      assert Strip([h.value.value]) == [WithoutProjectNumber(h.value.value)];
    } else if h.Success? {
      assert Strip([]) == [];
    }
  }

  lemma MapRecordsChain(a: Py<seq<NotionIssue>>, b: Py<seq<NotionIssue>>)
    ensures MapRecords(Chain(a, b)) == Chain(MapRecords(a), MapRecords(b))
  {
    if a.Success? && b.Success? {
      assert Strip(a.value + b.value) == Strip(a.value) + Strip(b.value);
    }
  }

  /** How the creation call answered one request: it returned an issue (true when the
      returned object is truthy), or it raised and the exception ends the run. */
  datatype CreateReply = Returned(truthy: bool) | Raised(error: Exc)

  /** What the driver reports for each record it finishes. */
  datatype Line = AlreadyExists(title: Json) | Created(title: Json) | CreateFailed(title: Json)

  /** The requests sent to the creation call, the report lines, and the exception that
      ended the run early, if any. */
  datatype SyncRun = SyncRun(submitted: seq<ScriptIssue>, log: seq<Line>, error: Option<Exc>)

  /** Some issue in the snapshot has exactly this title (case-sensitive string equality;
      a non-string title equals no issue title). */
  predicate AlreadyFiled(title: Json, existing: seq<string>) {
    title.Str? && title.s in existing
  }

  /** Reference definition: the records to create, in record order. */
  function NewIssues(records: seq<ScriptIssue>, existing: seq<string>): seq<ScriptIssue> {
    if |records| == 0 then []
    else (if AlreadyFiled(records[0].title, existing) then [] else [records[0]]) + NewIssues(records[1..], existing)
  }

  lemma {:induction false} NewIssuesAppend(a: seq<ScriptIssue>, b: seq<ScriptIssue>, existing: seq<string>)
    ensures NewIssues(a + b, existing) == NewIssues(a, existing) + NewIssues(b, existing)
  {
    if |a| == 0 {
      assert a + b == b;
    } else {
      assert (a + b)[0] == a[0];
      assert (a + b)[1..] == a[1..] + b;
      NewIssuesAppend(a[1..], b, existing);
    }
  }

  /** A record is submitted exactly when it is one of the records and its title is not
      in the snapshot. */
  lemma {:induction false} NewIssuesMembers(records: seq<ScriptIssue>, existing: seq<string>, x: ScriptIssue)
    ensures x in NewIssues(records, existing) <==> x in records && !AlreadyFiled(x.title, existing)
  {
    if |records| > 0 {
      NewIssuesMembers(records[1..], existing, x);
      assert records == [records[0]] + records[1..];
    }
  }

  /** The snapshot is read once and never updated: when no title is already filed,
      every record is submitted, duplicates included. */
  lemma {:induction false} NothingFiledAllSubmitted(records: seq<ScriptIssue>, existing: seq<string>)
    requires forall i :: 0 <= i < |records| ==> !AlreadyFiled(records[i].title, existing)
    ensures NewIssues(records, existing) == records
  {
    if |records| > 0 {
      NothingFiledAllSubmitted(records[1..], existing);
    }
  }

  /** The create loop: records in order; one creation request per record whose title is
      not in the snapshot; a creation exception ends the run. */
  method CreateMissing(records: seq<ScriptIssue>, existing: seq<string>, reply: nat -> CreateReply)
    returns (run: SyncRun)
    ensures run.error.None? ==> run.submitted == NewIssues(records, existing) && |run.log| == |records|
    ensures run.submitted <= NewIssues(records, existing)
    ensures |run.log| <= |records|
    ensures run.error.Some? ==>
              |run.submitted| > 0 && reply(|run.submitted| - 1) == Raised(run.error.value)
    ensures forall k :: 0 <= k < |run.submitted| && (run.error.None? || k < |run.submitted| - 1) ==>
              reply(k).Returned?
    ensures forall i :: 0 <= i < |run.log| ==>
              && run.log[i].title == records[i].title
              && (run.log[i].AlreadyExists? <==> AlreadyFiled(records[i].title, existing))
              && (run.log[i].Created? <==> (reply(|NewIssues(records[..i], existing)|) == Returned(true)
                                             && !AlreadyFiled(records[i].title, existing)))
  {
    var submitted: seq<ScriptIssue> := [];
    var log: seq<Line> := [];
    var i := 0;
    while i < |records|
      invariant 0 <= i <= |records|
      invariant submitted == NewIssues(records[..i], existing)
      invariant |log| == i
      invariant forall k :: 0 <= k < |submitted| ==> reply(k).Returned?
      invariant forall j :: 0 <= j < i ==>
                  && log[j].title == records[j].title
                  && (log[j].AlreadyExists? <==> AlreadyFiled(records[j].title, existing))
                  && (log[j].Created? <==> (reply(|NewIssues(records[..j], existing)|) == Returned(true)
                                            && !AlreadyFiled(records[j].title, existing)))
    {
      var issue := records[i];
      assert records[..i + 1] == records[..i] + [issue];
      NewIssuesAppend(records[..i], [issue], existing);
      assert NewIssues([issue], existing) == (if AlreadyFiled(issue.title, existing) then [] else [issue]);
      NewIssuesAppend(records[..i + 1], records[i + 1..], existing);
      assert records[..i + 1] + records[i + 1..] == records;
      if AlreadyFiled(issue.title, existing) {
        log := log + [AlreadyExists(issue.title)];
      } else {
        var answer := reply(|submitted|);
        submitted := submitted + [issue];
        if answer.Raised? {
          return SyncRun(submitted, log, Some(answer.error));
        }
        log := log + [if answer.truthy then Created(issue.title) else CreateFailed(issue.title)];
      }
      i := i + 1;
    }
    assert records[..i] == records;
    return SyncRun(submitted, log, None);
  }

  /** The whole driver: build every record first, then run the create loop. A failed
      build ends the run before any creation request. */
  method Sync(notionIssues: Json, existing: seq<string>, reply: nat -> CreateReply) returns (run: SyncRun)
    ensures BuildIssues(notionIssues).Failure? ==>
              run == SyncRun([], [], Some(BuildIssues(notionIssues).error))
    ensures BuildIssues(notionIssues).Success? && run.error.None? ==>
              run.submitted == NewIssues(BuildIssues(notionIssues).value, existing)
    ensures BuildIssues(notionIssues).Success? ==> run.submitted <= NewIssues(BuildIssues(notionIssues).value, existing)
    ensures forall x :: x in run.submitted ==> !AlreadyFiled(x.title, existing) && x.title != Str("")
    // A page without properties: nothing is created and the run reports the failure.
    ensures notionIssues.Arr? && (exists i :: 0 <= i < |notionIssues.items|
                                   && DictGet(notionIssues.items[i], "properties") == Success(Null)) ==>
              run.submitted == [] && run.error.Some?
  {
    var built := BuildIssues(notionIssues);
    if built.Failure? {
      return SyncRun([], [], Some(built.error));
    }
    run := CreateMissing(built.value, existing, reply);
    forall x | x in run.submitted
      ensures !AlreadyFiled(x.title, existing) && x.title != Str("")
    {
      var all := NewIssues(built.value, existing);
      assert x in all;
      NewIssuesMembers(built.value, existing, x);
    }
  }

  /** The last page received is the first record built. */
  lemma BuildLastPageFirst(pages: seq<Json>, x: Json)
    ensures BuildIssues(Arr(pages + [x])) == Chain(Kept(ScriptPage(x)), BuildIssues(Arr(pages)))
  {
    ReverseAppend(pages, [x]);
    assert Reverse([x]) == [x];
    CollectSomeAppend(ScriptPage, [x], Reverse(pages));
    CollectSomeSingle(ScriptPage, x);
  }

  /** The loop as script.py writes it: `NotionHelper(properties)` passes one argument to
      a constructor that takes a token and a database id, so every page that has
      properties raises TypeError before its title is read. */
  function ScriptPageAsWritten(entry: Json): (r: Py<Option<ScriptIssue>>)
    ensures r.Failure?
    ensures !entry.Obj? ==> r == Failure(AttributeError)
    ensures entry.Obj? && DictGet(entry, "properties") == Success(Null) ==> r == Failure(DatabaseError)
    ensures entry.Obj? && DictGet(entry, "properties").value != Null ==> r == Failure(TypeError)
  {
    var props :- DictGet(entry, "properties");
    if props == Null then Failure(DatabaseError) else Failure(TypeError)
  }

  function BuildIssuesAsWritten(notionIssues: Json): (r: Py<seq<ScriptIssue>>)
    ensures r.Success? ==> r.value == []
    ensures notionIssues.Arr? && |notionIssues.items| > 0 ==> r.Failure?
  {
    var entries :- ReversedEntries(notionIssues);
    CollectSome(ScriptPageAsWritten, entries)
  }

  /** A page whose only property is the title "Bug A". */
  function SamplePage(): Json {
    Obj(map["properties" := Obj(map["Title" := Obj(map["title" := Arr([Obj(map["plain_text" := Str("Bug A")])])])])])
  }

  lemma SamplePageTitle()
    ensures GetTitle(SamplePage().fields["properties"], "Title") == Success(Str("Bug A"))
  {
    var props := SamplePage().fields["properties"];
    var runs := [Obj(map["plain_text" := Str("Bug A")])];
    LookupKeys(props, "Title", "title");
    assert Lookup(props, ["Title", "title"]) == Some(Arr(runs));
    LookupKey(runs[0], "plain_text");
  }

  lemma SamplePageRecord()
    ensures ScriptPage(SamplePage()) == Success(Some(ScriptIssue(Str("Bug A"), Str(""), [], [])))
  {
    var props := SamplePage().fields["properties"];
    SamplePageTitle();
    assert GetRichText(props, "Discription") == Success(Str(""));
    assert GetMultiSelect(props, "Assignees") == Success([]);
    assert GetMultiSelect(props, "Labels") == Success([]);
  }

  /** The script as written builds no record from a well-formed page; reading the page
      through the NotionHelper accessors builds the intended one. */
  lemma AsWrittenRejectsWellFormedPage()
    ensures BuildIssuesAsWritten(Arr([SamplePage()])) == Failure(TypeError)
    ensures BuildIssues(Arr([SamplePage()])) == Success([ScriptIssue(Str("Bug A"), Str(""), [], [])])
  {
    var page := SamplePage();
    assert Reverse([page]) == [page];
    CollectSomeSingle(ScriptPageAsWritten, page);
    CollectSomeSingle(ScriptPage, page);
    SamplePageRecord();
  }
}

=== FILE: wrappers.dfy ===
/** Failure-compatible datatypes shared by the whole model. */
module Wrappers {

  /** An optional value. */
  datatype Option<+T> = None | Some(value: T)

  /** Either a value or the error that stopped the computation. Usable with `:-`. */
  datatype Result<+R, +E> = Success(value: R) | Failure(error: E) {

    predicate IsFailure() {
      Failure?
    }

    function PropagateFailure<U>(): Result<U, E>
      requires Failure?
    {
      Failure(error)
    }

    function Extract(): R
      requires Success?
    {
      value
    }
  }
}
